=== FILE: README.md ===
# Line-oriented text buffer with undo and redo

This project models, in Dafny, the buffer at the heart of a small console
text editor (`main.cpp`). The buffer has five parts:

- a doubly-linked list of lines;
- a cursor, made of a current line and a character index into it;
- an undo stack and a redo stack of edit records (`Action`s).

The model covers all the member functions of the editor's `LinkedList`
class. Its state is an immutable `Editing.Buffer`:

- the lines form a sequence;
- the current line is an index into that sequence, or `None` for the null
  `currentNode`;
- each stack is a sequence whose top is its last element.

When a line is linked in or unlinked, the index moves with it. That keeps
the cursor on the same line, exactly as the node pointer does in the
source. `Editing.Valid` states the class invariant:

- there is a current line exactly when there are lines;
- that line exists;
- without a current line, the character index is 0.

Every operation preserves it.

Modules:

- `Text`: single-character erase and insert, `std::string::find`, and the
  bracket highlight both renderers print.
- `LineStore`: splicing a line into the list and unlinking one, stated
  element by element. It also holds the head-first scans of `insertLine`
  and `deleteLine` (`ScanInsertPoint`, `Locate`). Each scan is written as
  a loop and proved equal to the closed form the pure functions use.
- `Editing`: `insertLine`, `deleteLine` with its cursor repair,
  `insertAndTrack`, `deleteCurrentChar`, `replaceCurrentChar`,
  `deleteCurrentLine` and `getCurrentLinePosition`.
- `Navigation`: the four cursor moves. The unsigned comparison in
  `moveToNextChar` is written out as arithmetic modulo 2^64.
- `History`: `undo` and `redo`, including dropping a character record
  whose line or index no longer resolves.
- `Render`: `display` and `searchAndHighlight`, as the lines they print.
- `RoundTrips`: what undo and redo do to the user's edits:
  - a single edit that records an action is reversed by `undo` and
    re-applied exactly by `redo`;
  - a run of such edits is reversed by as many undos;
  - a fresh edit discards the redo history;
  - two kinds of edit break the run-of-undos round trip, as described
    below.
- `Scenarios`: the four-line document `main()` starts with, plus three
  sessions on it.

Behaviours of the code the model keeps:

- An insertion at a position past the end of a non-empty list appends the
  line but records the index one past it. The following undo finds no
  line there and removes nothing; the record still moves to the redo
  stack, and a redo appends a second copy (`RoundTrips.OvershootingInsert`).
- `deleteCurrentChar` or `replaceCurrentChar` with no character under the
  cursor, and `deleteCurrentLine` with no current line, change nothing and
  record nothing (`RoundTrips.IrreversibleEditIsNoOp`). An undo that
  follows such an edit therefore reverses the edit made before it
  (`RoundTrips.NoOpEditThenUndo`). Every other edit records an action, even
  one that leaves the text as it was: replacing a character with itself
  still pushes a `ReplaceChar` record and empties the redo stack.
- A run of edits followed by as many undos restores the lines and the undo
  history when every edit records an action (`RoundTrips.Reversible`) and
  no insertion overshoots the end. These are the conditions of
  `RoundTrips.UndoAllEdits`.
- The character index is not always non-negative. Deleting the last line
  while the cursor is on it moves the cursor to the previous line, with
  index `length - 1`. For an empty previous line that index is -1.
- On an empty line, `moveToNextChar` compares against `0 - 1` in the
  unsigned size type, which is the largest size. The index therefore keeps
  advancing past the end of the line.
- An insertion into an empty list makes the new line current but keeps the
  old character index.
- An insertion at a negative position into a non-empty list lands after
  the head, at index 1.
- A deletion at a negative position deletes the head; on an empty list
  every deletion changes nothing.

## Model

| member | source | states |
|---|---|---|
| Editing.InsertLine | main.cpp:79-144 | Where the new line is linked in: at 0 in an empty list or at position 0; after the head for a negative position; at `position` inside the list; at the end past it. The rest of the list is kept in order. The record pushed is `InsertLine` with 0, 1, `position` or count+1 respectively, and the redo stack is emptied. Nothing is recorded when `record` is false. The cursor stays on the same line, or becomes the first line of a list that was empty. The character index is untouched. The invariant is kept. |
| LineStore.ScanInsertPoint | main.cpp:105-143 | The walk `index < position - 1` ends on the node after which the line is linked. It links at the tail when the walk reaches the tail or runs off the end. The index it lands at and the position it records are given case by case, and equal `LandingIndex`/`RecordedIndex`. |
| Editing.DeleteLine | main.cpp:147-198 | An empty list, or a position past the end, is left unchanged. Otherwise the line at `position`, or the head for a negative position, is unlinked and the rest kept in order. The deleted text is recorded with `position` as given, and the redo stack is emptied. Cursor repair: a cursor on the deleted line moves to its successor at index 0; failing that, to its predecessor at index `length - 1`; failing that, to no line at index 0. A cursor on another line stays on that same line with the same index. The invariant is kept. |
| LineStore.Locate | main.cpp:150-157 | The walk `index < position` from the head finds the line exactly when the list is non-empty and `position` is below its length. It finds line `position`, or the head for a negative position. |
| Editing.CurrentLinePosition | main.cpp:51-59 | The walk returns the cursor's line index. With no current line it stops at the end and returns the line count. For a cursor that is not in the list it returns -1. Under the invariant, with a current line, the result is that line's index. |
| Editing.InsertAndTrack | main.cpp:294-296 | One more line and exactly one more undo record: an `InsertLine` carrying the text. The earlier records are untouched and the redo stack is empty. |
| Editing.DeleteCurrentChar | main.cpp:201-236 | Without a current line, or with the index outside the line, nothing changes. Otherwise the current line loses exactly the character at the index, and every other line is kept. The index steps back by one when it was at the last character and is not 0. `DeleteChar(line, index, erased char)` is recorded and redo is emptied. |
| Editing.ReplaceCurrentChar | main.cpp:239-264 | Without a current line, or with the index outside the line, nothing changes. Otherwise only the character at the index changes, to `newChar`. The line length, every other character and line, and the cursor are kept. `ReplaceChar(line, index, old, new)` is recorded and redo is emptied. |
| Editing.DeleteCurrentLine | main.cpp:392-415 | Without a current line nothing changes. Otherwise the cursor's line is unlinked. Exactly one `DeleteLine(index, text)` is recorded and redo is emptied. The cursor moves to the successor at index 0, else to the predecessor at `length - 1`, else to no line. |
| Navigation.MoveToNextLine | main.cpp:326-340 | With a next line, the cursor moves down one line to index 0. On the last line, or with no line, nothing changes. The invariant is kept. |
| Navigation.MoveToPrevLine | main.cpp:343-357 | With a previous line, the cursor moves up one line to index 0. On the first line, or with no line, nothing changes. The invariant is kept. |
| Navigation.NextThenPrevLine | main.cpp:326-357 | Moving down a line and back up returns to the same line at index 0. |
| Navigation.PrevThenNextLine | main.cpp:326-357 | Moving up a line and back down returns to the same line at index 0. |
| Navigation.MoveToNextChar | main.cpp:360-373 | Only the index moves. Inside a line it advances by one and stays within `[0, length-1]`. At or past the last character it stays. A negative index never advances on a non-empty line. On an empty line it advances from any non-negative index, through the unsigned wrap of `length - 1`. |
| Navigation.MoveToPrevChar | main.cpp:376-389 | Only the index moves: down by one when positive, otherwise unchanged. A non-negative index stays non-negative. |
| Navigation.NextThenPrevChar | main.cpp:360-389 | Inside a line, one step right and one step left give back the same buffer. |
| Navigation.PrevThenNextChar | main.cpp:360-389 | Inside a line, one step left and one step right give back the same buffer. |
| Navigation.AsSize | main.cpp:366 | The conversion of a signed value to the unsigned size type: values in range are kept, and negative ones wrap by 2^64. |
| History.CharTarget | main.cpp:446-453 | A record resolves only to the line the head-first walk stops on: line `position`, or the head for a negative position. It resolves exactly when the walk stops on a line and the recorded index lies inside that line (or just past its end, for undoing a deletion); an index outside that line, or a walk that runs off the end, resolves to nothing. |
| History.Undo | main.cpp:418-488 | With an empty undo stack nothing changes. Otherwise the top record is popped. An `InsertLine` is undone by an unrecorded `deleteLine` at its position, and a `DeleteLine` by an unrecorded `insertLine` of its text; both then move to the redo stack. A `DeleteChar` puts its character back, and a `ReplaceChar` writes its old character back, when the line and index still resolve; the record then moves to redo, and otherwise it is dropped. An `InsertChar` is dropped. The invariant is kept. |
| History.Redo | main.cpp:491-563 | The mirror of `Undo` on the redo stack. An `InsertLine` is re-inserted and a `DeleteLine` re-deleted. A `DeleteChar` erases the character at its index again, and a `ReplaceChar` writes its new character, when they resolve. Records that do not resolve, and `InsertChar`, are dropped. |
| Render.RenderLine | main.cpp:271-286 | A line other than the current one is printed as it is. The current line has exactly its character under the cursor enclosed in brackets, and removing the brackets gives the line back. With the index outside the line, the whole line is bracketed. |
| Render.RenderLines | main.cpp:267-291 | `display` prints one line per list line. Every line but the current one is printed as it is. The current line has exactly its character under the cursor enclosed in brackets, and removing the brackets gives the line back. With the index outside the line, the whole line is bracketed. |
| Text.Find | main.cpp:303 | `find` returns an offset exactly when the key occurs, and it returns the first such offset. The empty key is found at 0. |
| Text.FindFrom | main.cpp:303 | The search from an offset returns the first occurrence at or after it, or reports that there is none from there on. |
| Text.Highlight | main.cpp:274-276 | The two bracket insertions add two characters. The brackets stand at `i` and `j + 1` and enclose exactly `s[i..j]`, and the text around them is kept. |
| Text.HighlightUnbracket | main.cpp:274-276 | Removing both inserted brackets gives back the original line. |
| Text.BracketCharacter | main.cpp:273-276 | Bracketing the character under the cursor puts it between the two brackets, and removing them gives the line back. |
| Text.BracketWhole | main.cpp:281 | Bracketing a whole line is the line between `[` and `]`. |
| Text.BracketOccurrence | main.cpp:306-308 | Bracketing an occurrence of the keyword encloses exactly the keyword, and removing the brackets gives the line back. |
| Render.HighlightFirst | main.cpp:303-313 | A line without the keyword is printed unchanged. Otherwise its first occurrence is enclosed in brackets (`Text.BracketedAt`: two characters longer, brackets around exactly the keyword, the line again once they are removed). No earlier occurrence exists. |
| Render.SearchAndHighlight | main.cpp:299-323 | One printed line per list line, each with its own first occurrence highlighted. The found flag is set exactly when some line contains the keyword. |
| Text.RemoveAt | main.cpp:216 | Erasing one character shortens the line by one and shifts the rest of it left. |
| Text.InsertAt | main.cpp:454 | Inserting one character lengthens the line by one and shifts the rest of it right. |
| Text.RemoveAfterInsert | main.cpp:454 | Erasing a character just inserted at the same index gives the line back. |
| Text.InsertAfterRemove | main.cpp:216 | Re-inserting the erased character at its index gives the line back. |
| LineStore.UnlinkAfterSplice | main.cpp:121-133 | Unlinking the line just linked in at the same index gives the list back. |
| LineStore.SpliceAfterUnlink | main.cpp:161-174 | Linking the line just unlinked back in at its index gives the list back. |
| RoundTrips.UndoRedoInsert | main.cpp:428-434 | After a tracked insertion that does not overshoot, undo restores the buffer exactly, cursor included, with the record waiting on the redo stack. The redo that follows gives back the state right after the insertion. |
| RoundTrips.UndoRedoDeleteChar | main.cpp:444-461 | After a character deletion, undo restores the lines and the undo history, with the record on the redo stack; the cursor stays where the deletion left it. Redo then gives back the state after the deletion. |
| RoundTrips.UndoRedoReplaceChar | main.cpp:463-480 | After a replacement, undo restores the buffer exactly, and redo gives back the state after the replacement. |
| RoundTrips.UndoRedoDeleteLine | main.cpp:436-442 | After a whole-line deletion, undo splices the same text back in at the same index. The lines, the line count and the undo history are restored, and the redo stack holds the deletion record. Redo then gives back the state after the deletion. |
| RoundTrips.UndoRedoEdit | main.cpp:418-563 | For each of the four user edits, when it records an action and (for an insertion) does not overshoot the end: exactly one record is pushed; one undo restores the text and the undo history; exactly that record waits on the redo stack; and redo re-applies the edit exactly. |
| RoundTrips.IrreversibleEditIsNoOp | main.cpp:201-210 | A character edit without a character under the cursor, or a line deletion without a current line, changes nothing and records nothing. |
| RoundTrips.NoOpEditThenUndo | main.cpp:201-210 | After a character edit with no character under the cursor, or a line deletion with no current line, the next undo is the undo of the edit made before it. |
| RoundTrips.OvershootingInsert | main.cpp:134-142 | An insertion past the end appends the line but records count+1. The following undo leaves the lines as they are while still moving the record to redo, and a redo then appends a second copy. |
| RoundTrips.UndoTimes | main.cpp:418-488 | Repeated undos keep the buffer invariant, and each one removes one record from a non-empty undo stack. |
| RoundTrips.UndoFrame | main.cpp:418-488 | What undo does to the lines and the undo stack depends only on those two. |
| RoundTrips.UndoAllEdits | main.cpp:418-488 | After any run of edits that each record an action, with no insertion overshooting the end, as many undos give back the original lines and undo history. |
| RoundTrips.EditDiscardsRedo | main.cpp:294-296 | From any valid buffer, an insertion, or another edit that records an action, made after any number of undos leaves an empty redo stack, and a redo then changes nothing. |
| Editing.EmptyValid | main.cpp:62-67 | A freshly constructed editor, with no lines, no current line and empty stacks, satisfies the buffer invariant. |
| Scenarios.InitialDocument | main.cpp:572-575 | The four start-up insertions give the four lines in order. The cursor is on the first character of the first line, four `InsertLine` records are stacked, and nothing is left to redo. |
| Scenarios.DeleteFirstCharacterThenUndo | main.cpp:201-236 | Deleting the start-up cursor's character removes the `H` of the first line, and one undo brings the document back. |
| Scenarios.AppendFifthLineUndoRedo | main.cpp:79-144 | Inserting at index 4 appends a fifth line. Undo removes it, and redo puts it back as the fifth line. |
| Scenarios.SearchPahit | main.cpp:299-323 | Searching the start-up document for `pahit` brackets it in the second line only and reports it found. |

## Left out

- The `main()` menu loop, reading input with `cin`, and the status
  messages written to `cout`. These are console input and output. The
  model keeps only what each member function changes or prints as text.
- The destructor and explicit node allocation and freeing. Memory
  management has no counterpart in an immutable sequence.
- The 32-bit width of `int` positions and character indices. Positions and
  indices are unbounded integers, so a wrap-around at `INT_MIN`/`INT_MAX`
  (for example `position - 1` with `INT_MIN`) is not modelled.
- Navigation.MoveToNextChar: its contract speaks only of lines shorter
  than 2^64 and of indices that fit the 64-bit size type. Longer lines
  cannot exist in memory.
- Render.RenderLines: the joining of the printed lines with line breaks
  (`Display`, `Join`) carries no contract of its own. The per-line content
  is what is stated.
- The `-1` branch of `getCurrentLinePosition`, and the checks for it in
  `deleteCurrentChar`, `replaceCurrentChar` and `deleteCurrentLine`. The
  branch is unreachable under the buffer invariant, so the edits use the
  cursor's index directly; `Editing.CurrentLinePosition` proves they
  agree.
- `InsertChar` records. No operation pushes one, and undo and redo only
  drop them.
- Character encodings. A character is one byte of the C++ `std::string`
  (one code unit); multi-byte encodings are not modelled.
- The `record` flag of the edits is kept as a parameter, although every
  user path passes `true`.

=== FILE: actions.dfy ===
/** The edit records kept on the undo and redo stacks. Line and character
    positions are the signed integers the records were created with. */
module Actions {

  datatype Action =
    | InsertLine(position: int, text: string)
    | DeleteLine(position: int, text: string)
    | InsertChar(position: int, index: int, ch: char)
    | DeleteChar(position: int, index: int, ch: char)
    | ReplaceChar(position: int, index: int, oldChar: char, newChar: char)
}

=== FILE: editing.dfy ===
/** The buffer: the line list, the cursor (a line plus a character index)
    and the undo and redo stacks, with the structural primitives
    `insertLine`/`deleteLine` and the user-facing edits built on them. */
module Editing {
  import opened Wrappers
  import opened Text
  import opened Actions
  import opened LineStore

  /** The whole editor state. The cursor is the index of the current line;
      the top of each stack is its last element. */
  datatype Buffer = Buffer(
    lines: seq<string>,
    cursor: Option<nat>,
    charIndex: int,
    undoStack: seq<Action>,
    redoStack: seq<Action>)

  /** A freshly constructed editor. */
  const Empty := Buffer([], None, 0, [], [])

  /** The constructor establishes the invariant. */
  lemma EmptyValid()
    ensures Valid(Empty) && |Empty.lines| == 0 && Empty.undoStack == [] && Empty.redoStack == []
  {
  }

  /** The cursor points at a live line exactly when there are lines, and an
      editor without a current line has character index 0. */
  predicate Valid(b: Buffer)
  {
    && (b.cursor.None? <==> |b.lines| == 0)
    && (b.cursor.Some? ==> b.cursor.value < |b.lines|)
    && (b.cursor.None? ==> b.charIndex == 0)
  }

  /** Pushes `a` onto the undo stack and empties the redo stack. */
  function Record(b: Buffer, a: Action): Buffer
  {
    b.(undoStack := b.undoStack + [a], redoStack := [])
  }

  /** The cursor line index after a line has been linked in at `k`: lines at
      or after `k` move down by one. */
  function ShiftDown(c: nat, k: nat): nat
  {
    if c < k then c else c + 1
  }

  /** The cursor line index after the line at `k` (not the cursor's) has been
      unlinked: lines after `k` move up by one. */
  function ShiftUp(c: nat, k: nat): nat
  {
    if c > k && c > 0 then c - 1 else c
  }

  /** `insertLine(position, text, record)`. */
  function InsertLine(b: Buffer, position: int, text: string, record: bool): (r: Buffer)
    // where the line lands
    ensures |b.lines| == 0 || position == 0 ==> Spliced(b.lines, r.lines, 0, text)
    ensures |b.lines| > 0 && position < 0 ==> Spliced(b.lines, r.lines, 1, text)
    ensures 1 <= position <= |b.lines| ==> Spliced(b.lines, r.lines, position, text)
    ensures |b.lines| > 0 && position > |b.lines| ==> Spliced(b.lines, r.lines, |b.lines|, text)
    // what is recorded
    ensures record && (|b.lines| == 0 || position == 0) ==>
      r.undoStack == b.undoStack + [Action.InsertLine(0, text)]
    ensures record && |b.lines| > 0 && position < 0 ==>
      r.undoStack == b.undoStack + [Action.InsertLine(1, text)]
    ensures record && 1 <= position <= |b.lines| ==>
      r.undoStack == b.undoStack + [Action.InsertLine(position, text)]
    ensures record && |b.lines| > 0 && position > |b.lines| ==>
      r.undoStack == b.undoStack + [Action.InsertLine(|b.lines| + 1, text)]
    ensures record ==> r.redoStack == []
    ensures !record ==> r.undoStack == b.undoStack && r.redoStack == b.redoStack
    // the cursor
    ensures |b.lines| == 0 ==> r.cursor == Some(0)
    ensures |b.lines| > 0 && b.cursor.Some? && b.cursor.value < |b.lines| ==>
      r.cursor.Some? && r.cursor.value < |r.lines| &&
      r.lines[r.cursor.value] == b.lines[b.cursor.value] &&
      r.cursor.value == ShiftDown(b.cursor.value, LandingIndex(|b.lines|, position))
    ensures |b.lines| > 0 ==> r.cursor.Some? == b.cursor.Some?
    ensures r.charIndex == b.charIndex
    ensures Valid(b) ==> Valid(r)
  {
    var n := |b.lines|;
    var k := LandingIndex(n, position);
    var cursor := if n == 0 then Some(0)
                  else if b.cursor.Some? then Some(ShiftDown(b.cursor.value, k))
                  else None;
    var linked := b.(lines := Insert(b.lines, k, text), cursor := cursor);
    if record then Record(linked, Action.InsertLine(RecordedIndex(n, position), text)) else linked
  }

  /** The cursor and character index after the line at `k` has been unlinked
      from `lines`: off the deleted line to its successor, else to its
      predecessor, else nowhere; any other cursor line just moves up. */
  function RepairCursor(lines: seq<string>, cursor: Option<nat>, charIndex: int, k: nat): (Option<nat>, int)
    requires k < |lines|
  {
    match cursor
    case None => (None, charIndex)
    case Some(c) =>
      if c != k then (Some(ShiftUp(c, k)), charIndex)
      else if k + 1 < |lines| then (Some(k), 0)
      else if k > 0 then (Some(k - 1), |lines[k - 1]| - 1)
      else (None, 0)
  }

  /** `deleteLine(position, record)`. A negative position deletes the head. */
  function DeleteLine(b: Buffer, position: int, record: bool): (r: Buffer)
    ensures position >= |b.lines| ==> r == b
    ensures |b.lines| == 0 ==> r == b
    ensures 0 <= position < |b.lines| ==> Unlinked(b.lines, r.lines, position)
    ensures position < 0 && |b.lines| > 0 ==> Unlinked(b.lines, r.lines, 0)
    // what is recorded
    ensures record && 0 <= position < |b.lines| ==>
      r.undoStack == b.undoStack + [Action.DeleteLine(position, b.lines[position])]
    ensures record && position < 0 && |b.lines| > 0 ==>
      r.undoStack == b.undoStack + [Action.DeleteLine(position, b.lines[0])]
    ensures record && 0 < |b.lines| && position < |b.lines| ==> r.redoStack == []
    ensures !record ==> r.undoStack == b.undoStack && r.redoStack == b.redoStack
    // the cursor, when it was on the deleted line
    ensures var k := if position < 0 then 0 else position;
      k + 1 < |b.lines| && b.cursor == Some(k) ==>
        r.cursor == Some(k) && r.lines[k] == b.lines[k + 1] && r.charIndex == 0
    ensures var k := if position < 0 then 0 else position;
      0 < k && k + 1 == |b.lines| && b.cursor == Some(k) ==>
        r.cursor == Some(k - 1) && r.lines[k - 1] == b.lines[k - 1] &&
        r.charIndex == |b.lines[k - 1]| - 1
    ensures position < 1 && |b.lines| == 1 && b.cursor == Some(0) ==>
      r.cursor == None && r.charIndex == 0
    // the cursor, when it was on another line
    ensures var k := if position < 0 then 0 else position;
      k < |b.lines| && b.cursor.Some? && b.cursor.value != k && b.cursor.value < |b.lines| ==>
        r.cursor.Some? && r.cursor.value < |r.lines| &&
        r.lines[r.cursor.value] == b.lines[b.cursor.value] &&
        r.cursor.value == ShiftUp(b.cursor.value, k) &&
        r.charIndex == b.charIndex
    ensures Valid(b) ==> Valid(r)
  {
    match Resolve(|b.lines|, position)
    case None => b
    case Some(k) =>
      var (cursor, charIndex) := RepairCursor(b.lines, b.cursor, b.charIndex, k);
      var unlinked := b.(lines := Remove(b.lines, k), cursor := cursor, charIndex := charIndex);
      if record then Record(unlinked, Action.DeleteLine(position, b.lines[k])) else unlinked
  }

  /** `insertAndTrack(position, text)`: an insertion that is always recorded. */
  function InsertAndTrack(b: Buffer, position: int, text: string): (r: Buffer)
    ensures |r.lines| == |b.lines| + 1
    ensures |r.undoStack| == |b.undoStack| + 1 && r.undoStack[..|b.undoStack|] == b.undoStack
    ensures r.undoStack[|b.undoStack|].InsertLine? && r.undoStack[|b.undoStack|].text == text
    ensures r.redoStack == []
    ensures Valid(b) ==> Valid(r)
  {
    InsertLine(b, position, text, true)
  }

  /** The line and character under a valid cursor, when the character index
      is inside the line. */
  predicate OnCharacter(b: Buffer)
    requires Valid(b)
  {
    b.cursor.Some? && 0 <= b.charIndex < |b.lines[b.cursor.value]|
  }

  /** `deleteCurrentChar(record)`: erases the character under the cursor,
      then steps the index back if it fell off the end of a non-empty line. */
  function DeleteCurrentChar(b: Buffer, record: bool): (r: Buffer)
    requires Valid(b)
    ensures !OnCharacter(b) ==> r == b
    ensures OnCharacter(b) ==>
      var c := b.cursor.value;
      var i := b.charIndex;
      && |r.lines| == |b.lines|
      && r.lines[c] == RemoveAt(b.lines[c], i)
      && (forall k :: 0 <= k < |b.lines| && k != c ==> r.lines[k] == b.lines[k])
      && r.cursor == b.cursor
      && r.charIndex == (if i >= |b.lines[c]| - 1 && i > 0 then i - 1 else i)
      && (record ==> r.undoStack == b.undoStack + [Action.DeleteChar(c, i, b.lines[c][i])] && r.redoStack == [])
      && (!record ==> r.undoStack == b.undoStack && r.redoStack == b.redoStack)
    ensures Valid(r)
  {
    if !OnCharacter(b) then b
    else
      var c := b.cursor.value;
      var i := b.charIndex;
      var line := b.lines[c];
      var erased := b.(lines := b.lines[c := RemoveAt(line, i)]);
      var recorded := if record then Record(erased, Action.DeleteChar(c, i, line[i])) else erased;
      if i >= |line| - 1 && i > 0 then recorded.(charIndex := i - 1) else recorded
  }

  /** `replaceCurrentChar(newChar, record)`: overwrites the character under
      the cursor. */
  function ReplaceCurrentChar(b: Buffer, newChar: char, record: bool): (r: Buffer)
    requires Valid(b)
    ensures !OnCharacter(b) ==> r == b
    ensures OnCharacter(b) ==>
      var c := b.cursor.value;
      var i := b.charIndex;
      && |r.lines| == |b.lines|
      && |r.lines[c]| == |b.lines[c]|
      && r.lines[c][i] == newChar
      && (forall j :: 0 <= j < |b.lines[c]| && j != i ==> r.lines[c][j] == b.lines[c][j])
      && (forall k :: 0 <= k < |b.lines| && k != c ==> r.lines[k] == b.lines[k])
      && r.cursor == b.cursor && r.charIndex == b.charIndex
      && (record ==> r.undoStack == b.undoStack + [Action.ReplaceChar(c, i, b.lines[c][i], newChar)] && r.redoStack == [])
      && (!record ==> r.undoStack == b.undoStack && r.redoStack == b.redoStack)
    ensures Valid(r)
  {
    if !OnCharacter(b) then b
    else
      var c := b.cursor.value;
      var i := b.charIndex;
      var line := b.lines[c];
      var replaced := b.(lines := b.lines[c := line[i := newChar]]);
      if record then Record(replaced, Action.ReplaceChar(c, i, line[i], newChar)) else replaced
  }

  /** `deleteCurrentLine()`: records one `DeleteLine` for the cursor's line
      itself, then unlinks that line without recording again. */
  function DeleteCurrentLine(b: Buffer): (r: Buffer)
    requires Valid(b)
    ensures b.cursor.None? ==> r == b
    ensures b.cursor.Some? ==>
      var c := b.cursor.value;
      && Unlinked(b.lines, r.lines, c)
      && r.undoStack == b.undoStack + [Action.DeleteLine(c, b.lines[c])]
      && r.redoStack == []
      && (c + 1 < |b.lines| ==> r.cursor == Some(c) && r.charIndex == 0)
      && (c + 1 == |b.lines| && c > 0 ==> r.cursor == Some(c - 1) && r.charIndex == |b.lines[c - 1]| - 1)
      && (|b.lines| == 1 ==> r.cursor == None)
    ensures Valid(r)
  {
    match b.cursor
    case None => b
    case Some(c) => DeleteLine(Record(b, Action.DeleteLine(c, b.lines[c])), c, false)
  }

  /** `getCurrentLinePosition()`: walk from the head until the current line
      (or the end of the list) is reached. With no current line the walk
      stops at the end, which equals the null cursor, and returns the line
      count; a cursor the walk never meets gives -1. */
  method CurrentLinePosition(b: Buffer) returns (pos: int)
    ensures b.cursor.Some? && b.cursor.value < |b.lines| ==> pos == b.cursor.value
    ensures b.cursor.None? ==> pos == |b.lines|
    ensures b.cursor.Some? && b.cursor.value >= |b.lines| ==> pos == -1
    ensures Valid(b) && b.cursor.Some? ==> 0 <= pos < |b.lines| && pos == b.cursor.value
  {
    var index := 0;
    // `index == |b.lines|` stands for the null node
    while index < |b.lines| && b.cursor != Some(index)
      invariant 0 <= index <= |b.lines|
      invariant forall j :: 0 <= j < index ==> b.cursor != Some(j)
    {
      index := index + 1;
    }
    if (index < |b.lines| && b.cursor == Some(index)) || (index == |b.lines| && b.cursor.None?) {
      pos := index;
    } else {
      pos := -1;
    }
  }
}

=== FILE: history.dfy ===
/** `undo()` and `redo()`: replaying the top record of one stack without
    recording it again, then moving it to the other stack. Character
    records whose line or index no longer resolves are dropped. */
module History {
  import opened Wrappers
  import opened Text
  import opened Actions
  import opened LineStore
  import opened Editing

  /** The line a character record addresses, when the head-first walk to
      `position` reaches a line and `index` is inside it (`allowEnd` also
      admits the position just past its last character). */
  function CharTarget(lines: seq<string>, position: int, index: int, allowEnd: bool): (r: Option<nat>)
    ensures r.Some? ==> r.value < |lines| && 0 <= index
    ensures r.Some? ==> r == Resolve(|lines|, position)
    ensures r.Some? ==> index < |lines[r.value]| || (allowEnd && index == |lines[r.value]|)
    ensures 0 <= position < |lines| && 0 <= index < |lines[position]| ==> r == Some(position)
    ensures 0 <= position < |lines| && allowEnd && index == |lines[position]| ==> r == Some(position)
    ensures 0 < |lines| && position < 0 && 0 <= index < |lines[0]| ==> r == Some(0)
    ensures 0 < |lines| && position < 0 && allowEnd && index == |lines[0]| ==> r == Some(0)
    ensures position >= |lines| || index < 0 ==> r.None?
  {
    match Resolve(|lines|, position)
    case None => None
    case Some(k) =>
      if 0 <= index && (index < |lines[k]| || (allowEnd && index == |lines[k]|)) then Some(k) else None
  }

  function Top(stack: seq<Action>): Action
    requires |stack| > 0
  {
    stack[|stack| - 1]
  }

  function Pop(stack: seq<Action>): seq<Action>
    requires |stack| > 0
  {
    stack[..|stack| - 1]
  }

  /** `undo()`. */
  function Undo(b: Buffer): (r: Buffer)
    ensures |b.undoStack| == 0 ==> r == b
    ensures |b.undoStack| > 0 ==> r.undoStack == Pop(b.undoStack)
    ensures |b.undoStack| > 0 ==>
      || r.redoStack == b.redoStack + [Top(b.undoStack)]
      || r == b.(undoStack := Pop(b.undoStack))
    // line records always move to the redo stack
    ensures |b.undoStack| > 0 && Top(b.undoStack).InsertLine? ==>
      r == Editing.DeleteLine(b, Top(b.undoStack).position, false)
             .(undoStack := Pop(b.undoStack), redoStack := b.redoStack + [Top(b.undoStack)])
    ensures |b.undoStack| > 0 && Top(b.undoStack).DeleteLine? ==>
      r == Editing.InsertLine(b, Top(b.undoStack).position, Top(b.undoStack).text, false)
             .(undoStack := Pop(b.undoStack), redoStack := b.redoStack + [Top(b.undoStack)])
    // a deleted character goes back in, if its line and index still resolve
    ensures |b.undoStack| > 0 && Top(b.undoStack).DeleteChar? ==>
      var a := Top(b.undoStack);
      match CharTarget(b.lines, a.position, a.index, true)
      case Some(k) =>
        r == b.(lines := b.lines[k := InsertAt(b.lines[k], a.index as nat, a.ch)],
                undoStack := Pop(b.undoStack), redoStack := b.redoStack + [a])
      case None => r == b.(undoStack := Pop(b.undoStack))
    // a replaced character gets its old value back, if it still resolves
    ensures |b.undoStack| > 0 && Top(b.undoStack).ReplaceChar? ==>
      var a := Top(b.undoStack);
      match CharTarget(b.lines, a.position, a.index, false)
      case Some(k) =>
        r == b.(lines := b.lines[k := b.lines[k][a.index := a.oldChar]],
                undoStack := Pop(b.undoStack), redoStack := b.redoStack + [a])
      case None => r == b.(undoStack := Pop(b.undoStack))
    // a kind no edit produces is dropped
    ensures |b.undoStack| > 0 && Top(b.undoStack).InsertChar? ==> r == b.(undoStack := Pop(b.undoStack))
    ensures Valid(b) ==> Valid(r)
  {
    if |b.undoStack| == 0 then b
    else
      var a := Top(b.undoStack);
      var popped := b.(undoStack := Pop(b.undoStack));
      match a
      case InsertLine(p, _) =>
        var r := Editing.DeleteLine(popped, p, false);
        r.(redoStack := r.redoStack + [a])
      case DeleteLine(p, t) =>
        var r := Editing.InsertLine(popped, p, t, false);
        r.(redoStack := r.redoStack + [a])
      case DeleteChar(p, i, ch) =>
        (match CharTarget(b.lines, p, i, true)
         case Some(k) =>
           popped.(lines := b.lines[k := InsertAt(b.lines[k], i as nat, ch)], redoStack := b.redoStack + [a])
         case None => popped)
      case ReplaceChar(p, i, oldChar, _) =>
        (match CharTarget(b.lines, p, i, false)
         case Some(k) =>
           popped.(lines := b.lines[k := b.lines[k][i := oldChar]], redoStack := b.redoStack + [a])
         case None => popped)
      case InsertChar(_, _, _) => popped
  }

  /** `redo()`. */
  function Redo(b: Buffer): (r: Buffer)
    ensures |b.redoStack| == 0 ==> r == b
    ensures |b.redoStack| > 0 ==> r.redoStack == Pop(b.redoStack)
    ensures |b.redoStack| > 0 ==>
      || r.undoStack == b.undoStack + [Top(b.redoStack)]
      || r == b.(redoStack := Pop(b.redoStack))
    // line records always move to the undo stack
    ensures |b.redoStack| > 0 && Top(b.redoStack).InsertLine? ==>
      r == Editing.InsertLine(b, Top(b.redoStack).position, Top(b.redoStack).text, false)
             .(redoStack := Pop(b.redoStack), undoStack := b.undoStack + [Top(b.redoStack)])
    ensures |b.redoStack| > 0 && Top(b.redoStack).DeleteLine? ==>
      r == Editing.DeleteLine(b, Top(b.redoStack).position, false)
             .(redoStack := Pop(b.redoStack), undoStack := b.undoStack + [Top(b.redoStack)])
    // the character at the recorded index is erased again, if it resolves
    ensures |b.redoStack| > 0 && Top(b.redoStack).DeleteChar? ==>
      var a := Top(b.redoStack);
      match CharTarget(b.lines, a.position, a.index, false)
      case Some(k) =>
        r == b.(lines := b.lines[k := RemoveAt(b.lines[k], a.index as nat)],
                redoStack := Pop(b.redoStack), undoStack := b.undoStack + [a])
      case None => r == b.(redoStack := Pop(b.redoStack))
    // the replacement is written again, if it resolves
    ensures |b.redoStack| > 0 && Top(b.redoStack).ReplaceChar? ==>
      var a := Top(b.redoStack);
      match CharTarget(b.lines, a.position, a.index, false)
      case Some(k) =>
        r == b.(lines := b.lines[k := b.lines[k][a.index := a.newChar]],
                redoStack := Pop(b.redoStack), undoStack := b.undoStack + [a])
      case None => r == b.(redoStack := Pop(b.redoStack))
    ensures |b.redoStack| > 0 && Top(b.redoStack).InsertChar? ==> r == b.(redoStack := Pop(b.redoStack))
    ensures Valid(b) ==> Valid(r)
  {
    if |b.redoStack| == 0 then b
    else
      var a := Top(b.redoStack);
      var popped := b.(redoStack := Pop(b.redoStack));
      match a
      case InsertLine(p, t) =>
        var r := Editing.InsertLine(popped, p, t, false);
        r.(undoStack := r.undoStack + [a])
      case DeleteLine(p, _) =>
        var r := Editing.DeleteLine(popped, p, false);
        r.(undoStack := r.undoStack + [a])
      case DeleteChar(p, i, _) =>
        (match CharTarget(b.lines, p, i, false)
         case Some(k) =>
           popped.(lines := b.lines[k := RemoveAt(b.lines[k], i as nat)], undoStack := b.undoStack + [a])
         case None => popped)
      case ReplaceChar(p, i, _, newChar) =>
        (match CharTarget(b.lines, p, i, false)
         case Some(k) =>
           popped.(lines := b.lines[k := b.lines[k][i := newChar]], undoStack := b.undoStack + [a])
         case None => popped)
      case InsertChar(_, _, _) => popped
  }
}

=== FILE: line_store.dfy ===
/** The doubly-linked line list as a sequence of lines: where `insertLine`
    splices a new line, which line a head-first scan reaches, and the two
    shape predicates the buffer's contracts are written with. */
module LineStore {
  import opened Wrappers

  /** `after` is `before` with `t` spliced in at index `k`, every other line
      keeping its relative order. */
  predicate Spliced(before: seq<string>, after: seq<string>, k: nat, t: string)
  {
    && k <= |before|
    && |after| == |before| + 1
    && after[k] == t
    && (forall i :: 0 <= i < k ==> after[i] == before[i])
    && (forall i :: k <= i < |before| ==> after[i + 1] == before[i])
  }

  /** `after` is `before` with the line at index `k` unlinked, every other
      line keeping its relative order. */
  predicate Unlinked(before: seq<string>, after: seq<string>, k: nat)
  {
    && k < |before|
    && |after| == |before| - 1
    && (forall i :: 0 <= i < k ==> after[i] == before[i])
    && (forall i :: k < i < |before| ==> after[i - 1] == before[i])
  }

  function Insert(lines: seq<string>, k: nat, t: string): (r: seq<string>)
    requires k <= |lines|
    ensures Spliced(lines, r, k, t)
  {
    lines[..k] + [t] + lines[k..]
  }

  function Remove(lines: seq<string>, k: nat): (r: seq<string>)
    requires k < |lines|
    ensures Unlinked(lines, r, k)
  {
    lines[..k] + lines[k + 1..]
  }

  /** Unlinking the line just spliced in gives the list back. */
  lemma UnlinkAfterSplice(lines: seq<string>, k: nat, t: string)
    requires k <= |lines|
    ensures Remove(Insert(lines, k, t), k) == lines
  {
    var r := Remove(Insert(lines, k, t), k);
    assert forall i :: 0 <= i < |lines| ==> r[i] == lines[i];
  }

  /** Splicing the line just unlinked back in at its index gives the list
      back. */
  lemma SpliceAfterUnlink(lines: seq<string>, k: nat)
    requires k < |lines|
    ensures Insert(Remove(lines, k), k, lines[k]) == lines
  {
    var r := Insert(Remove(lines, k), k, lines[k]);
    assert forall i :: 0 <= i < |lines| ==> r[i] == lines[i];
  }

  /** Index at which `insertLine(position, ...)` links the new line into a
      list of `n` lines. */
  function LandingIndex(n: nat, position: int): nat
  {
    if n == 0 || position == 0 then 0
    else if position < 0 then 1
    else if position <= n then position
    else n
  }

  /** Line position that `insertLine(position, ...)` writes into its
      `InsertLine` record. */
  function RecordedIndex(n: nat, position: int): int
  {
    if n == 0 || position == 0 then 0
    else if position < 0 then 1
    else if position <= n then position
    else n + 1
  }

  /** Line reached by walking `position` steps from the head of `n` lines,
      or None when the walk runs off the end. A negative `position` takes no
      step and lands on the head. */
  function Resolve(n: nat, position: int): Option<nat>
  {
    var k := if position < 0 then 0 else position;
    if k < n then Some(k) else None
  }

  /** The splice-point scan of `insertLine`: walk from the head while
      `index < position - 1`, then link after the node reached, at the tail
      when that node is the tail or the walk ran off the end. Returns where
      the line lands and the position recorded for it. */
  method ScanInsertPoint(n: nat, position: int) returns (landing: nat, recorded: int)
    ensures n == 0 || position == 0 ==> landing == 0 && recorded == 0
    ensures n > 0 && position < 0 ==> landing == 1 && recorded == 1
    ensures 1 <= position <= n ==> landing == position && recorded == position
    ensures n > 0 && position > n ==> landing == n && recorded == n + 1
    ensures landing == LandingIndex(n, position) && recorded == RecordedIndex(n, position)
  {
    if n == 0 || position == 0 {
      return 0, 0;
    }
    var index := 0;
    // `index < n` says the node reached is not null
    while index < n && index < position - 1
      invariant 0 <= index <= n
      invariant index == 0 || index <= position - 1
    {
      index := index + 1;
    }
    if index >= n - 1 {
      // the node reached is the tail, or the walk ran off the end
      landing := n;
    } else {
      landing := index + 1;
    }
    recorded := index + 1;
  }

  /** The head-first walk of `deleteLine` and of the character cases of
      undo and redo: advance while `index < position` and a node remains. */
  method Locate(n: nat, position: int) returns (r: Option<nat>)
    ensures r.Some? ==> r.value < n
    ensures r.Some? <==> n > 0 && position < n
    ensures 0 <= position < n ==> r == Some(position)
    ensures n > 0 && position < 0 ==> r == Some(0)
    ensures r == Resolve(n, position)
  {
    var index := 0;
    while index < n && index < position
      invariant 0 <= index <= n
      invariant index == 0 || index <= position
    {
      index := index + 1;
    }
    if index < n {
      r := Some(index);
    } else {
      r := None;
    }
  }
}

=== FILE: navigation.dfy ===
/** Cursor movement between lines and between characters of the current
    line. None of these touches the text or the stacks. */
module Navigation {
  import opened Wrappers
  import opened Editing

  /** Number of values of the platform's unsigned size type (64 bits). */
  const SizeModulus: int := 0x1_0000_0000_0000_0000

  /** Range of the signed 32-bit character index. */
  const IntMin: int := -0x8000_0000
  const IntMax: int := 0x7fff_ffff

  /** An integer as the unsigned size type sees it once converted: negative
      values and `0 - 1` wrap around to the top of the range. */
  function AsSize(x: int): (r: nat)
    ensures r < SizeModulus
    ensures 0 <= x < SizeModulus ==> r == x
    ensures -SizeModulus <= x < 0 ==> r == x + SizeModulus
  {
    x % SizeModulus
  }

  /** `moveToNextLine()`. */
  function MoveToNextLine(b: Buffer): (r: Buffer)
    requires Valid(b)
    ensures b.cursor.Some? && b.cursor.value + 1 < |b.lines| ==>
      r == b.(cursor := Some(b.cursor.value + 1), charIndex := 0)
    ensures b.cursor.None? || b.cursor.value + 1 == |b.lines| ==> r == b
    ensures Valid(r)
  {
    match b.cursor
    case None => b
    case Some(c) => if c + 1 < |b.lines| then b.(cursor := Some(c + 1), charIndex := 0) else b
  }

  /** `moveToPrevLine()`. */
  function MoveToPrevLine(b: Buffer): (r: Buffer)
    requires Valid(b)
    ensures b.cursor.Some? && b.cursor.value > 0 ==>
      r == b.(cursor := Some(b.cursor.value - 1), charIndex := 0)
    ensures b.cursor.None? || b.cursor.value == 0 ==> r == b
    ensures Valid(r)
  {
    match b.cursor
    case None => b
    case Some(c) => if c > 0 then b.(cursor := Some(c - 1), charIndex := 0) else b
  }

  /** `moveToNextChar()`. The bound check compares in the unsigned size type,
      so on an empty line the bound `0 - 1` wraps to the largest size and the
      index keeps growing, and a negative index never advances. */
  function MoveToNextChar(b: Buffer): (r: Buffer)
    requires Valid(b)
    ensures r.lines == b.lines && r.cursor == b.cursor
    ensures r.undoStack == b.undoStack && r.redoStack == b.redoStack
    ensures b.cursor.Some? && |b.lines[b.cursor.value]| < SizeModulus ==>
      var len := |b.lines[b.cursor.value]|;
      && (len > 0 && 0 <= b.charIndex < len - 1 ==> r.charIndex == b.charIndex + 1)
      && (len > 0 && 0 <= b.charIndex <= len - 1 ==> 0 <= r.charIndex <= len - 1)
      && (len > 0 && len - 1 <= b.charIndex < SizeModulus ==> r == b)
      && (IntMin <= b.charIndex < 0 && 0 < len <= IntMax ==> r == b)
      && (len == 0 && b.charIndex == -1 ==> r == b)
      && (len == 0 && 0 <= b.charIndex < SizeModulus - 1 ==> r.charIndex == b.charIndex + 1)
    ensures b.cursor.None? ==> r == b
    ensures Valid(r)
  {
    match b.cursor
    case None => b
    case Some(c) =>
      if AsSize(b.charIndex) < AsSize(|b.lines[c]| - 1) then b.(charIndex := b.charIndex + 1) else b
  }

  /** `moveToPrevChar()`. */
  function MoveToPrevChar(b: Buffer): (r: Buffer)
    requires Valid(b)
    ensures r.lines == b.lines && r.cursor == b.cursor
    ensures r.undoStack == b.undoStack && r.redoStack == b.redoStack
    ensures b.cursor.Some? && b.charIndex > 0 ==> r.charIndex == b.charIndex - 1
    ensures b.charIndex >= 0 ==> r.charIndex >= 0
    ensures b.cursor.None? || b.charIndex <= 0 ==> r == b
    ensures Valid(r)
  {
    match b.cursor
    case None => b
    case Some(_) => if b.charIndex > 0 then b.(charIndex := b.charIndex - 1) else b
  }

  /** Stepping down a line and back up returns to the same line, at its
      first character. */
  lemma NextThenPrevLine(b: Buffer)
    requires Valid(b) && b.cursor.Some? && b.cursor.value + 1 < |b.lines|
    ensures MoveToPrevLine(MoveToNextLine(b)) == b.(charIndex := 0)
  {
  }

  /** Stepping up a line and back down returns to the same line, at its
      first character. */
  lemma PrevThenNextLine(b: Buffer)
    requires Valid(b) && b.cursor.Some? && b.cursor.value > 0
    ensures MoveToNextLine(MoveToPrevLine(b)) == b.(charIndex := 0)
  {
  }

  /** Inside a line, stepping one character right and back left returns to
      the same character. */
  lemma NextThenPrevChar(b: Buffer)
    requires Valid(b) && b.cursor.Some?
    requires |b.lines[b.cursor.value]| < SizeModulus
    requires 0 <= b.charIndex < |b.lines[b.cursor.value]| - 1
    ensures MoveToPrevChar(MoveToNextChar(b)) == b
  {
  }

  /** Inside a line, stepping one character left and back right returns to
      the same character. */
  lemma PrevThenNextChar(b: Buffer)
    requires Valid(b) && b.cursor.Some?
    requires |b.lines[b.cursor.value]| < SizeModulus
    requires 0 < b.charIndex < |b.lines[b.cursor.value]|
    ensures MoveToNextChar(MoveToPrevChar(b)) == b
  {
  }
}

=== FILE: render.dfy ===
/** The two text projections of the buffer: the cursor rendering of
    `display()` and the keyword rendering of `searchAndHighlight()`. Both are
    pure: they read the buffer and change nothing. */
module Render {
  import opened Wrappers
  import opened Text
  import opened Editing

  /** How `display()` prints the line at `k`: the current line has its
      character under the cursor bracketed, or the whole line when the index
      is not inside it; every other line is printed as it is. */
  function RenderLine(b: Buffer, k: nat): (r: string)
    requires k < |b.lines|
    ensures b.cursor != Some(k) ==> r == b.lines[k]
    ensures b.cursor == Some(k) && 0 <= b.charIndex < |b.lines[k]| ==>
      var i := b.charIndex;
      && |r| == |b.lines[k]| + 2
      && r[i] == '[' && r[i + 2] == ']' && r[i + 1] == b.lines[k][i]
      && RemoveAt(RemoveAt(r, i + 2), i) == b.lines[k]
    ensures b.cursor == Some(k) && !(0 <= b.charIndex < |b.lines[k]|) ==> r == "[" + b.lines[k] + "]"
  {
    var line := b.lines[k];
    if b.cursor != Some(k) then line
    else if 0 <= b.charIndex < |line| then
      BracketCharacter(line, b.charIndex);
      Highlight(line, b.charIndex, b.charIndex + 1)
    else
      BracketWhole(line);
      Highlight(line, 0, |line|)
  }

  /** The lines `display()` prints, in order. */
  function RenderLines(b: Buffer): (r: seq<string>)
    ensures |r| == |b.lines|
    ensures forall k :: 0 <= k < |b.lines| && b.cursor != Some(k) ==> r[k] == b.lines[k]
    ensures b.cursor.Some? && b.cursor.value < |b.lines| ==>
      var c := b.cursor.value;
      var i := b.charIndex;
      && (0 <= i < |b.lines[c]| ==>
            |r[c]| == |b.lines[c]| + 2 &&
            r[c][i] == '[' && r[c][i + 2] == ']' && r[c][i + 1] == b.lines[c][i] &&
            RemoveAt(RemoveAt(r[c], i + 2), i) == b.lines[c])
      && (!(0 <= i < |b.lines[c]|) ==> r[c] == "[" + b.lines[c] + "]")
  {
    var r := seq(|b.lines|, k requires 0 <= k < |b.lines| => RenderLine(b, k));
    assert b.cursor.Some? && b.cursor.value < |b.lines| ==> r[b.cursor.value] == RenderLine(b, b.cursor.value);
    r
  }

  /** `display()`: the rendered lines separated by line breaks and ended by
      one. */
  function Display(b: Buffer): string
  {
    Join(RenderLines(b)) + "\n"
  }

  /** A line with the first occurrence of `key` bracketed, or unchanged when
      `key` does not occur in it. */
  function HighlightFirst(line: string, key: string): (r: string)
    ensures (forall j :: !OccursAt(line, key, j)) ==> r == line
    ensures Find(line, key).Some? ==>
      var p := Find(line, key).value;
      && BracketedAt(r, line, key, p)
      && (forall j :: 0 <= j < p ==> !OccursAt(line, key, j))
  {
    match Find(line, key)
    case None => line
    case Some(p) =>
      BracketOccurrence(line, key, p);
      Highlight(line, p, p + |key|)
  }

  /** What `searchAndHighlight()` prints: every line, and whether any line
      contained the keyword (otherwise a not-found message follows). */
  datatype SearchResult = SearchResult(lines: seq<string>, found: bool)

  /** `searchAndHighlight(keyword)`: every line with its first occurrence of
      `keyword` bracketed, and whether there was any occurrence at all. */
  function SearchAndHighlight(b: Buffer, keyword: string): (r: SearchResult)
    ensures |r.lines| == |b.lines|
    ensures forall k :: 0 <= k < |b.lines| ==> r.lines[k] == HighlightFirst(b.lines[k], keyword)
    ensures r.found <==> exists k, j :: 0 <= k < |b.lines| && OccursAt(b.lines[k], keyword, j)
  {
    var lines := seq(|b.lines|, k requires 0 <= k < |b.lines| => HighlightFirst(b.lines[k], keyword));
    SearchResult(lines, exists k :: 0 <= k < |b.lines| && Find(b.lines[k], keyword).Some?)
  }
}

=== FILE: round_trips.dfy ===
/** What undo and redo promise about the edits a user makes: a single edit
    is reversed by `undo()` and re-applied by `redo()`, a run of edits is
    reversed by as many undos, and a fresh edit discards the redo history.
    Two kinds of edit break the run-of-undos round trip: an insertion past
    the end, whose undo does not reverse it, and an edit that records no
    action (a character edit with no character under the cursor, a line
    deletion with no current line), so the next undo reverses an earlier
    edit. */
module RoundTrips {
  import opened Wrappers
  import opened Text
  import opened Actions
  import opened LineStore
  import opened Editing
  import opened History

  /** The four recorded user edits. */
  datatype Edit =
    | TrackInsert(position: int, text: string)
    | TrackDeleteChar
    | TrackReplaceChar(ch: char)
    | TrackDeleteLine

  function Apply(b: Buffer, e: Edit): (r: Buffer)
    requires Valid(b)
    ensures Valid(r)
  {
    match e
    case TrackInsert(p, t) => InsertAndTrack(b, p, t)
    case TrackDeleteChar => DeleteCurrentChar(b, true)
    case TrackReplaceChar(ch) => ReplaceCurrentChar(b, ch, true)
    case TrackDeleteLine => DeleteCurrentLine(b)
  }

  /** The edit records an action whose undo addresses the same line: character edits need a character under the cursor,
      line deletion needs a current line, and an insertion must not
      overshoot the end of a non-empty list. */
  predicate Reversible(b: Buffer, e: Edit)
    requires Valid(b)
  {
    match e
    case TrackInsert(p, _) => |b.lines| == 0 || p <= |b.lines|
    case TrackDeleteChar => OnCharacter(b)
    case TrackReplaceChar(_) => OnCharacter(b)
    case TrackDeleteLine => b.cursor.Some?
  }

  /** Undoing an insertion that does not overshoot restores the buffer
      exactly, cursor included, with the insertion waiting on the redo
      stack; redoing it then gives back the state right after the insert. */
  lemma UndoRedoInsert(b: Buffer, position: int, text: string)
    requires Valid(b)
    requires |b.lines| == 0 || position <= |b.lines|
    ensures var x := InsertAndTrack(b, position, text);
      && Undo(x) == b.(redoStack := [Top(x.undoStack)])
      && Redo(Undo(x)) == x
  {
    var n := |b.lines|;
    var k := LandingIndex(n, position);
    var x := InsertAndTrack(b, position, text);
    assert RecordedIndex(n, position) == k;
    assert x.lines == Insert(b.lines, k, text);
    UnlinkAfterSplice(b.lines, k, text);
    var u := Undo(x);
    assert u.lines == b.lines;
    if n > 0 {
      assert ShiftUp(ShiftDown(b.cursor.value, k), k) == b.cursor.value;
    }
    assert LandingIndex(n, k) == k;
  }

  /** Undoing a character deletion puts the character back at its index;
      redoing it erases it again. The cursor stays where the deletion left
      it. */
  lemma UndoRedoDeleteChar(b: Buffer)
    requires Valid(b) && OnCharacter(b)
    ensures var x := DeleteCurrentChar(b, true);
      && Undo(x).lines == b.lines
      && Undo(x).undoStack == b.undoStack
      && Undo(x).redoStack == [Top(x.undoStack)]
      && Undo(x).cursor == x.cursor && Undo(x).charIndex == x.charIndex
      && Redo(Undo(x)) == x
  {
    var c := b.cursor.value;
    var i := b.charIndex;
    var x := DeleteCurrentChar(b, true);
    InsertAfterRemove(b.lines[c], i);
    assert CharTarget(x.lines, c, i, true) == Some(c);
    assert b.lines[c := b.lines[c]] == b.lines;
    assert CharTarget(b.lines, c, i, false) == Some(c);
  }

  /** Undoing a replacement restores the buffer exactly; redoing it writes
      the new character again. */
  lemma UndoRedoReplaceChar(b: Buffer, ch: char)
    requires Valid(b) && OnCharacter(b)
    ensures var x := ReplaceCurrentChar(b, ch, true);
      && Undo(x) == b.(redoStack := [Top(x.undoStack)])
      && Redo(Undo(x)) == x
  {
    var c := b.cursor.value;
    var i := b.charIndex;
    var x := ReplaceCurrentChar(b, ch, true);
    assert CharTarget(x.lines, c, i, false) == Some(c);
    assert b.lines[c][i := ch][i := b.lines[c][i]] == b.lines[c];
    assert b.lines[c := b.lines[c]] == b.lines;
    assert CharTarget(b.lines, c, i, false) == Some(c);
  }

  /** Undoing a whole-line deletion splices the same text back in at the
      same index, restoring the line count; the cursor stays on the line it
      was repaired to. Redoing it deletes that line again. */
  lemma UndoRedoDeleteLine(b: Buffer)
    requires Valid(b) && b.cursor.Some?
    ensures var x := DeleteCurrentLine(b);
      && Undo(x).lines == b.lines
      && |Undo(x).lines| == |b.lines|
      && Undo(x).undoStack == b.undoStack
      && Undo(x).redoStack == [Action.DeleteLine(b.cursor.value, b.lines[b.cursor.value])]
      && Redo(Undo(x)) == x
  {
    var c := b.cursor.value;
    var x := DeleteCurrentLine(b);
    assert x.lines == Remove(b.lines, c);
    assert LandingIndex(|x.lines|, c) == c;
    SpliceAfterUnlink(b.lines, c);
    var u := Undo(x);
    assert u.lines == b.lines;
    UnlinkAfterSplice(x.lines, c, b.lines[c]);
    if |b.lines| > 1 {
      if c + 1 < |b.lines| {
        assert u.cursor == Some(c + 1);
      } else {
        assert u.cursor == Some(c - 1);
      }
    }
  }

  /** Any reversible edit is undone by one `undo()` as far as the text and
      the undo history go, leaves exactly its own record on the redo stack,
      and is re-applied exactly by the `redo()` that follows. */
  lemma UndoRedoEdit(b: Buffer, e: Edit)
    requires Valid(b) && Reversible(b, e)
    ensures |Apply(b, e).undoStack| == |b.undoStack| + 1
    ensures Undo(Apply(b, e)).lines == b.lines
    ensures Undo(Apply(b, e)).undoStack == b.undoStack
    ensures Undo(Apply(b, e)).redoStack == [Top(Apply(b, e).undoStack)]
    ensures Redo(Undo(Apply(b, e))) == Apply(b, e)
  {
    match e
    case TrackInsert(p, t) => UndoRedoInsert(b, p, t);
    case TrackDeleteChar => UndoRedoDeleteChar(b);
    case TrackReplaceChar(ch) => UndoRedoReplaceChar(b, ch);
    case TrackDeleteLine => UndoRedoDeleteLine(b);
  }

  /** A character edit with no character under the cursor, or a line
      deletion with no current line, changes nothing and records nothing. */
  lemma IrreversibleEditIsNoOp(b: Buffer, e: Edit)
    requires Valid(b) && !e.TrackInsert? && !Reversible(b, e)
    ensures Apply(b, e) == b
  {
  }

  /** Inserting past the end of a non-empty list appends the line but
      records the index one past it, so the following undo deletes nothing
      while still moving the record to the redo stack, and a redo appends a
      second copy. */
  lemma OvershootingInsert(b: Buffer, position: int, text: string)
    requires Valid(b) && 0 < |b.lines| < position
    ensures var x := InsertAndTrack(b, position, text);
      && x.lines == b.lines + [text]
      && Top(x.undoStack) == Action.InsertLine(|b.lines| + 1, text)
      && Undo(x).lines == b.lines + [text]
      && Undo(x).redoStack == [Action.InsertLine(|b.lines| + 1, text)]
      && Redo(Undo(x)).lines == b.lines + [text, text]
  {
    var x := InsertAndTrack(b, position, text);
    assert x.lines == b.lines + [text];
    var u := Undo(x);
    assert u.lines == x.lines;
    var w := Redo(u);
    assert w.lines == Insert(u.lines, |u.lines|, text);
    assert w.lines == b.lines + [text, text];
  }

  /** The buffer after applying `es` in order. */
  function ApplyAll(b: Buffer, es: seq<Edit>): (r: Buffer)
    requires Valid(b)
    ensures Valid(r)
    decreases |es|
  {
    if |es| == 0 then b else ApplyAll(Apply(b, es[0]), es[1..])
  }

  /** Every edit of `es` is reversible in the state it is applied to. */
  predicate AllReversible(b: Buffer, es: seq<Edit>)
    requires Valid(b)
    decreases |es|
  {
    |es| == 0 || (Reversible(b, es[0]) && AllReversible(Apply(b, es[0]), es[1..]))
  }

  /** `undo()` called `n` times. */
  function UndoTimes(b: Buffer, n: nat): (r: Buffer)
    ensures Valid(b) ==> Valid(r)
    ensures |r.undoStack| == if n <= |b.undoStack| then |b.undoStack| - n else 0
    decreases n
  {
    if n == 0 then b else Undo(UndoTimes(b, n - 1))
  }

  /** What `undo()` does to the text and the undo stack depends on nothing
      else: not on the cursor and not on the redo stack. */
  lemma UndoFrame(a: Buffer, b: Buffer)
    requires a.lines == b.lines && a.undoStack == b.undoStack
    ensures Undo(a).lines == Undo(b).lines && Undo(a).undoStack == Undo(b).undoStack
  {
  }

  /** After any run of reversible edits, as many undos give back the text
      and the undo history the run started from. */
  lemma {:induction false} UndoAllEdits(b: Buffer, es: seq<Edit>)
    requires Valid(b) && AllReversible(b, es)
    ensures UndoTimes(ApplyAll(b, es), |es|).lines == b.lines
    ensures UndoTimes(ApplyAll(b, es), |es|).undoStack == b.undoStack
    decreases |es|
  {
    if |es| > 0 {
      var b1 := Apply(b, es[0]);
      var rest := es[1..];
      var x := ApplyAll(b1, rest);
      assert ApplyAll(b, es) == x;
      UndoAllEdits(b1, rest);
      UndoFrame(UndoTimes(x, |rest|), b1);
      UndoRedoEdit(b, es[0]);
    }
  }

  /** An edit that records nothing leaves the buffer as it was, so the undo
      that follows it reverses the edit made before it instead. */
  lemma NoOpEditThenUndo(b: Buffer, e: Edit)
    requires Valid(b) && !e.TrackInsert? && !Reversible(b, e)
    ensures UndoTimes(ApplyAll(b, [e]), 1) == Undo(b)
  {
    assert ApplyAll(b, [e]) == ApplyAll(Apply(b, e), []);
    IrreversibleEditIsNoOp(b, e);
  }

  /** A new edit made after any number of undos leaves nothing to redo. */
  lemma EditDiscardsRedo(b: Buffer, undos: nat, e: Edit)
    requires Valid(b)
    requires e.TrackInsert? || Reversible(UndoTimes(b, undos), e)
    ensures var x := Apply(UndoTimes(b, undos), e);
      x.redoStack == [] && Redo(x) == x
  {
  }
}

=== FILE: scenarios.dfy ===
/** The editor's start-up document and three concrete sessions on it. */
module Scenarios {
  import opened Wrappers
  import opened Actions
  import opened Editing
  import opened History
  import opened Render
  import opened Text
  import opened RoundTrips

  const Line0: string := "Hidup itu seperti kopi, "
  const Line1: string := "terkadang pahit, "
  const Line2: string := "terkadang manis, "
  // named in three pieces so that facts about its characters stay cheap to prove
  const Line3a: string := "tapi selalu bisa "
  const Line3b: string := "dinikmati jika kita "
  const Line3c: string := "tahu caranya."
  const Line3: string := Line3a + Line3b + Line3c

  /** The four tracked insertions the editor starts with. */
  function Initial(): Buffer
  {
    var b0 := InsertAndTrack(Empty, 0, Line0);
    var b1 := InsertAndTrack(b0, 1, Line1);
    var b2 := InsertAndTrack(b1, 2, Line2);
    InsertAndTrack(b2, 3, Line3)
  }

  /** The start-up document has the four lines in order, the cursor on the
      first character of the first line, and four insertions to undo. */
  lemma InitialDocument()
    ensures Initial().lines == [Line0, Line1, Line2, Line3]
    ensures Initial().cursor == Some(0) && Initial().charIndex == 0
    ensures Initial().undoStack ==
      [Action.InsertLine(0, Line0), Action.InsertLine(1, Line1),
       Action.InsertLine(2, Line2), Action.InsertLine(3, Line3)]
    ensures Initial().redoStack == []
  {
  }

  /** Deleting the character under the start-up cursor removes the `H`;
      one undo brings it back. */
  lemma DeleteFirstCharacterThenUndo()
    ensures DeleteCurrentChar(Initial(), true).lines[0] == "idup itu seperti kopi, "
    ensures Undo(DeleteCurrentChar(Initial(), true)).lines == Initial().lines
  {
    InitialDocument();
    UndoRedoDeleteChar(Initial());
    var x := DeleteCurrentChar(Initial(), true);
    assert x.lines[0] == Line0[1..];
    assert Line0[1..] == "idup itu seperti kopi, ";
  }

  /** Inserting at index 4 appends a fifth line; undo removes it and redo
      puts it back at index 4. */
  lemma AppendFifthLineUndoRedo()
    ensures |InsertAndTrack(Initial(), 4, "Selamat pagi.").lines| == 5
    ensures InsertAndTrack(Initial(), 4, "Selamat pagi.").lines[4] == "Selamat pagi."
    ensures Undo(InsertAndTrack(Initial(), 4, "Selamat pagi.")).lines == Initial().lines
    ensures Redo(Undo(InsertAndTrack(Initial(), 4, "Selamat pagi."))).lines
            == Initial().lines + ["Selamat pagi."]
  {
    InitialDocument();
  }

  /** A key with a character that never appears in `s` from offset `from`
      on does not occur in `s` from there on. */
  lemma AbsentCharacterFrom(s: string, key: string, m: nat, from: nat)
    requires m < |key| && forall i :: from <= i < |s| ==> s[i] != key[m]
    ensures forall j :: from <= j ==> !OccursAt(s, key, j)
  {
    forall j: nat | from <= j
      ensures !OccursAt(s, key, j)
    {
      if j + |key| <= |s| {
        assert s[j..j + |key|][m] == s[j + m];
      }
    }
  }

  /** When `p` is the first offset at which `key` occurs in `s`, the
      search brackets `key` there. */
  lemma HighlightAt(s: string, key: string, p: nat)
    requires OccursAt(s, key, p)
    requires forall j :: 0 <= j < p ==> !OccursAt(s, key, j)
    ensures HighlightFirst(s, key) == Highlight(s, p, p + |key|)
  {
    assert Find(s, key).Some?;
  }

  /** A line in which the key does not occur is printed unchanged. */
  lemma SearchKeepsLine(b: Buffer, key: string, k: nat)
    requires k < |b.lines| && forall j :: !OccursAt(b.lines[k], key, j)
    ensures SearchAndHighlight(b, key).lines[k] == b.lines[k]
  {
  }

  /** A line whose first occurrence of the key is at `p` is printed with
      the key bracketed there. */
  lemma SearchBracketsLine(b: Buffer, key: string, k: nat, p: nat)
    requires k < |b.lines| && OccursAt(b.lines[k], key, p)
    requires forall j :: 0 <= j < p ==> !OccursAt(b.lines[k], key, j)
    ensures SearchAndHighlight(b, key).lines[k] == Highlight(b.lines[k], p, p + |key|)
  {
    HighlightAt(b.lines[k], key, p);
  }

  /** A search over four lines of which only the second contains the key,
      first at offset `p`, brackets the key there. */
  lemma SearchSecondOfFour(b: Buffer, key: string, l0: string, l1: string, l2: string, l3: string, p: nat)
    requires |b.lines| == 4 && b.lines[0] == l0 && b.lines[1] == l1 && b.lines[2] == l2 && b.lines[3] == l3
    requires forall j :: !OccursAt(l0, key, j)
    requires OccursAt(l1, key, p)
    requires forall j :: 0 <= j < p ==> !OccursAt(l1, key, j)
    requires forall j :: !OccursAt(l2, key, j)
    requires forall j :: !OccursAt(l3, key, j)
    ensures SearchAndHighlight(b, key).lines == [l0, Highlight(l1, p, p + |key|), l2, l3]
  {
    var r := SearchAndHighlight(b, key).lines;
    SearchKeepsLine(b, key, 0);
    SearchBracketsLine(b, key, 1, p);
    SearchKeepsLine(b, key, 2);
    SearchKeepsLine(b, key, 3);
    FourLines(r, l0, Highlight(l1, p, p + |key|), l2, l3);
  }

  lemma FourLines(r: seq<string>, a: string, b: string, c: string, d: string)
    requires |r| == 4 && r[0] == a && r[1] == b && r[2] == c && r[3] == d
    ensures r == [a, b, c, d]
  {
  }

  lemma PahitAt10InLine1()
    ensures OccursAt(Line1, "pahit", 10)
    ensures forall j :: 0 <= j < 10 ==> !OccursAt(Line1, "pahit", j)
    ensures Highlight(Line1, 10, 15) == "terkadang [pahit], "
  {
    assert Line1[10..15] == "pahit";
    forall j | 0 <= j < 10
      ensures !OccursAt(Line1, "pahit", j)
    {
      assert Line1[j..j + 5][0] == Line1[j] != 'p';
    }
    assert Line1[..10] == "terkadang ";
    assert Line1[15..] == ", ";
  }

  /** A character missing from the three pieces of a string (the first
      from offset `from` on) is missing from the whole from there on. */
  lemma AbsentFromPieces(x: string, y: string, z: string, ch: char, from: nat)
    requires forall i :: from <= i < |x| ==> x[i] != ch
    requires forall i :: 0 <= i < |y| ==> y[i] != ch
    requires forall i :: 0 <= i < |z| ==> z[i] != ch
    ensures forall i :: from <= i < |x + y + z| ==> (x + y + z)[i] != ch
  {
    forall i | from <= i < |x + y + z|
      ensures (x + y + z)[i] != ch
    {
      if i >= |x| + |y| {
        assert (x + y + z)[i] == z[i - |x| - |y|];
      } else if i >= |x| {
        assert (x + y + z)[i] == y[i - |x|];
      }
    }
  }

  lemma PahitNotInLine3()
    ensures forall j :: !OccursAt(Line3, "pahit", j)
  {
    var key := "pahit";
    assert forall i :: 3 <= i < |Line3a| ==> Line3a[i] != 'p';
    assert forall i :: 0 <= i < |Line3b| ==> Line3b[i] != 'p';
    assert forall i :: 0 <= i < |Line3c| ==> Line3c[i] != 'p';
    AbsentFromPieces(Line3a, Line3b, Line3c, 'p', 3);
    assert Line3[..5][0] == Line3[0] != key[0];
    assert Line3[1..6][0] == Line3[1] != key[0];
    assert Line3[2..7][1] == Line3[3] != key[1];
    AbsentCharacterFrom(Line3, key, 0, 3);
  }

  /** Searching the start-up lines for `pahit` brackets it in the second
      line only. */
  lemma SearchPahitIn(b: Buffer)
    requires b.lines == [Line0, Line1, Line2, Line3]
    ensures SearchAndHighlight(b, "pahit").lines == [Line0, "terkadang [pahit], ", Line2, Line3]
  {
    AbsentCharacterFrom(Line0, "pahit", 2, 0);
    AbsentCharacterFrom(Line2, "pahit", 2, 0);
    PahitNotInLine3();
    PahitAt10InLine1();
    SearchSecondOfFour(b, "pahit", Line0, Line1, Line2, Line3, 10);
  }

  /** A search reports the key found as soon as one line contains it. */
  lemma SearchFindsLine(b: Buffer, key: string, k: nat, p: nat)
    requires k < |b.lines| && OccursAt(b.lines[k], key, p)
    ensures SearchAndHighlight(b, key).found
  {
  }

  /** The same search on the start-up document itself. */
  lemma SearchPahit()
    ensures SearchAndHighlight(Initial(), "pahit").lines
            == [Line0, "terkadang [pahit], ", Line2, Line3]
    ensures SearchAndHighlight(Initial(), "pahit").found
  {
    InitialDocument();
    SearchPahitIn(Initial());
    PahitAt10InLine1();
    SearchFindsLine(Initial(), "pahit", 1, 10);
  }
}

=== FILE: text.dfy ===
/** Character-level string operations the buffer relies on: single-character
    erase and insert, first-occurrence search and bracket highlighting. */
module Text {
  import opened Wrappers

  /** `s` with the character at `i` erased (one-character `erase`). */
  function RemoveAt(s: string, i: nat): (r: string)
    requires i < |s|
    ensures |r| == |s| - 1
    ensures forall k :: 0 <= k < i ==> r[k] == s[k]
    ensures forall k :: i <= k < |r| ==> r[k] == s[k + 1]
  {
    s[..i] + s[i + 1..]
  }

  /** `s` with `c` inserted in front of position `i` (one-character `insert`). */
  function InsertAt(s: string, i: nat, c: char): (r: string)
    requires i <= |s|
    ensures |r| == |s| + 1
    ensures r[i] == c
    ensures forall k :: 0 <= k < i ==> r[k] == s[k]
    ensures forall k :: i <= k < |s| ==> r[k + 1] == s[k]
  {
    s[..i] + [c] + s[i..]
  }

  /** Erasing the character just inserted gives the string back. */
  lemma RemoveAfterInsert(s: string, i: nat, c: char)
    requires i <= |s|
    ensures RemoveAt(InsertAt(s, i, c), i) == s
  {
    var r := RemoveAt(InsertAt(s, i, c), i);
    assert forall k :: 0 <= k < |s| ==> r[k] == s[k];
  }

  /** Re-inserting the character just erased gives the string back. */
  lemma InsertAfterRemove(s: string, i: nat)
    requires i < |s|
    ensures InsertAt(RemoveAt(s, i), i, s[i]) == s
  {
    var r := InsertAt(RemoveAt(s, i), i, s[i]);
    assert forall k :: 0 <= k < |s| ==> r[k] == s[k];
  }

  /** `key` occurs in `s` starting at offset `i`. */
  predicate OccursAt(s: string, key: string, i: nat)
  {
    i + |key| <= |s| && s[i..i + |key|] == key
  }

  /** The first offset at or after `from` where `key` occurs, as a left-to-right
      substring search does it. */
  function FindFrom(s: string, key: string, from: nat): (r: Option<nat>)
    ensures r.Some? ==> from <= r.value && OccursAt(s, key, r.value)
    ensures r.Some? ==> forall j :: from <= j < r.value ==> !OccursAt(s, key, j)
    ensures r.None? ==> forall j :: from <= j ==> !OccursAt(s, key, j)
    decreases |s| - from
  {
    if from + |key| > |s| then None
    else if s[from..from + |key|] == key then Some(from)
    else FindFrom(s, key, from + 1)
  }

  /** `std::string::find`: the first occurrence of `key` in `s`, if any.
      The empty key is found at offset 0. */
  function Find(s: string, key: string): (r: Option<nat>)
    ensures r.Some? <==> exists j :: OccursAt(s, key, j)
    ensures r.Some? ==> OccursAt(s, key, r.value)
    ensures r.Some? ==> forall j :: 0 <= j < r.value ==> !OccursAt(s, key, j)
    ensures |key| == 0 ==> r == Some(0)
  {
    var r := FindFrom(s, key, 0);
    assert |key| == 0 ==> OccursAt(s, key, 0);
    r
  }

  /** `s` with `[` inserted before offset `i` and `]` after offset `j - 1`:
      the two brackets enclose exactly `s[i..j]`. */
  function Highlight(s: string, i: nat, j: nat): (r: string)
    requires i <= j <= |s|
    ensures |r| == |s| + 2
    ensures r[i] == '[' && r[j + 1] == ']'
    ensures r[..i] == s[..i]
    ensures r[i + 1..j + 1] == s[i..j]
    ensures r[j + 2..] == s[j..]
  {
    s[..i] + "[" + s[i..j] + "]" + s[j..]
  }

  /** Removing the two brackets of a highlight gives the original string. */
  lemma HighlightUnbracket(s: string, i: nat, j: nat)
    requires i <= j <= |s|
    ensures RemoveAt(RemoveAt(Highlight(s, i, j), j + 1), i) == s
  {
    var h := Highlight(s, i, j);
    var r := RemoveAt(RemoveAt(h, j + 1), i);
    assert forall k :: 0 <= k < i ==> r[k] == h[..i][k] == s[k];
    assert forall k :: i <= k < j ==> r[k] == h[i + 1..j + 1][k - i] == s[k];
    assert forall k :: j <= k < |s| ==> r[k] == h[j + 2..][k - j] == s[k];
  }

  /** Bracketing the single character at `i`: it stands between the two
      brackets, and removing them gives `s` back. */
  lemma BracketCharacter(s: string, i: nat)
    requires i < |s|
    ensures var h := Highlight(s, i, i + 1);
      && |h| == |s| + 2
      && h[i] == '[' && h[i + 1] == s[i] && h[i + 2] == ']'
      && RemoveAt(RemoveAt(h, i + 2), i) == s
  {
    var h := Highlight(s, i, i + 1);
    assert h[i + 1..i + 2] == s[i..i + 1];
    HighlightUnbracket(s, i, i + 1);
  }

  /** Bracketing all of `s`. */
  lemma BracketWhole(s: string)
    ensures Highlight(s, 0, |s|) == "[" + s + "]"
  {
    assert s[..0] == [] && s[0..|s|] == s && s[|s|..] == [];
  }

  /** `h` is `s` with its occurrence of `key` at `p` enclosed in brackets:
      two characters longer, the brackets around exactly `key`, and `s`
      again once both are removed. */
  predicate BracketedAt(h: string, s: string, key: string, p: nat)
  {
    && p + |key| <= |s|
    && |h| == |s| + 2
    && h[p] == '[' && h[p + |key| + 1] == ']'
    && h[p + 1..p + |key| + 1] == key
    && RemoveAt(RemoveAt(h, p + |key| + 1), p) == s
  }

  /** Bracketing an occurrence of `key` encloses exactly `key`. */
  lemma BracketOccurrence(s: string, key: string, p: nat)
    requires OccursAt(s, key, p)
    ensures BracketedAt(Highlight(s, p, p + |key|), s, key, p)
  {
    HighlightUnbracket(s, p, p + |key|);
  }

  /** The lines joined by line breaks, as the rendering loops print them. */
  function Join(lines: seq<string>): string
  {
    if |lines| == 0 then ""
    else if |lines| == 1 then lines[0]
    else lines[0] + "\n" + Join(lines[1..])
  }
}

=== FILE: wrappers.dfy ===
/** The optional-value datatype used for a cursor that may point at no line
    and for scans that may run off the end of the line list. */
module Wrappers {

  datatype Option<+T> = None | Some(value: T)
}
